=== FILE: README.md ===
# wttrin — a Dafny model of the wttr.in client

The Go package `wttrin` asks the public weather service wttr.in for a forecast in one of
three shapes: a one-line report (`Line`), a multi-line ASCII report (`ASCII`) or a PNG
image (`Image`). Each mode fills in defaults (language `zh`, location 成都, a default
one-line template, a per-mode default flag string), builds the path that follows
`http://wttr.in/`, issues one GET, and, for the two text modes, sorts the body into a
result or an error: the service's outage page (a rule of 86 `=` signs together with
`https://twitter.com/igor_chubin`) is an error carrying the body, and in the one-line mode
only, the text `Unknown location; please try` is a location error.

The model is pure, as the package is:

- `strings.dfy` (`Strings`): `strings.Contains` and `strings.Join`, with `Split` and
  `SplitFirst` as their partners. `Contains` is proved equal to "occurs at some index".
- `utf8.dfy` (`Utf8`): the UTF-8 bytes of a string and their decoding, which refuses
  overlong forms, with the round trip.
- `url.dfy` (`Url`): `url.QueryEscape` in Go's query-component mode (unreserved bytes
  kept, space to `+`, every other byte to `%XX` in upper-case hex, following section 2.1
  and 2.3 of RFC 3986) and `QueryUnescape`, a reference decoder that undoes it, with the round trip and the fact that an
  escaped value holds no `&`, `=`, `?` or space.
- `wttrin.dfy` (`Wttrin`): the constants, the three path builders (each proved to read
  back, through the parsers of `PathGrammar`, as exactly the effective location, language,
  format template and flag tokens, in the caller's order), `WttrIn`, the outage
  test, the two classifiers and the three modes. The HTTP GET is a parameter
  `get: string -> Reply` from the requested URL to a transport failure or a status and
  body, so each mode's contract states which URL it requests and what it makes of every
  possible reply.
- `grammar.dfy` (`PathGrammar`): parsers for the three path grammars, defined
  independently of the builders. They read the path string that a mode hands to the GET,
  not what the remote service finally receives (see "Left out").
- `options.dfy` (`Options`): an `Option` type usable with `:-`.

Location, language and flag tokens are inserted into the path unescaped, as the package
does; the builders' read-back contracts therefore hold when they avoid the delimiters
of their grammar (`?` in a location and `&` in a language for the text modes, `_` in both
for the image mode, `_` in a flag token). The format template needs no such condition
because it is escaped. The image path ends in `.png`; it is free of `?` and `&` only when the
caller's values are.

## Model

| member | source | states |
|---|---|---|
| `Strings.Contains` | wttrin.go:170 | `strings.Contains` is true exactly when the substring occurs at some index |
| `Strings.Join` | wttrin.go:101 | joining no tokens gives the empty string; a join starts with its first token |
| `Strings.SplitJoin` | wttrin.go:99-102 | tokens joined with `_` split back into the same tokens in the caller's order, when no token holds `_` |
| `Strings.JoinSplit` | wttrin.go:101 | every string is the `_`-join of its pieces, so the joined segment loses nothing |
| `Utf8.EncodeChar` | wttrin.go:104 | an ASCII character is its own byte; every byte of a non-ASCII character is at least 0x80 |
| `Utf8.DecodeEncode` | wttrin.go:104 | the UTF-8 bytes of the template decode back to the template |
| `Url.EscapeByte` | wttrin.go:104 | an unreserved byte is kept, a space becomes `+`, any other byte becomes `%` and two upper-case hex digits; only unreserved characters, `%` and `+` appear |
| `Url.QueryEscape` | wttrin.go:104 | the escaped template contains only unreserved characters, `%` and `+`, so no `&`, `=`, `?` or space |
| `Url.QueryRoundTrip` | wttrin.go:104 | unescaping the escaped template gives back exactly the caller's template |
| `Url.QueryEscapeKeepsUnreserved` | wttrin.go:104 | a template made only of unreserved characters is sent unchanged |
| `Url.QueryEscapeExample` | wttrin.go:104 | `%l %t` is sent as `%25l+%25t` |
| `Wttrin.Error.Message` | wttrin.go:83-118 | a transport error's text is its cause; a status error's is `wttrin response status error:` and the status; an outage error's is the page; the location error's is `wttrin Line get location failed` |
| `Wttrin.Repeat` | wttrin.go:168 | the outage rule is 86 characters, every one `=` |
| `Wttrin.OrDefault` | wttrin.go:90-98 | an empty language, location or template is replaced by the mode's default; a non-empty one is used as given |
| `Wttrin.FlagSegment` | wttrin.go:99-102 | no tokens give the mode's default string; otherwise the tokens joined with `_`, which split back into the same tokens when none holds `_` |
| `Wttrin.DefaultLineFlagsAreJoinedTokens` | wttrin.go:99 | the one-line default `m_M` is the tokens `m`, `M` joined with `_` |
| `Wttrin.DefaultAsciiFlagsAreJoinedTokens` | wttrin.go:131 | the ASCII default is the seven tokens `0 A T F m M p` joined with `_` |
| `Wttrin.DefaultImageFlagsAreJoinedTokens` | wttrin.go:159 | the image default is the four tokens `0 m p q` joined with `_` |
| `Wttrin.FlagSegmentTokens` | wttrin.go:99-102 | the flag segment splits into the caller's tokens in order when there are any, and into the mode's default tokens otherwise |
| `Wttrin.AsciiFieldsWith` | wttrin.go:131-135 | an ASCII path reads back as its location, language and effective flag tokens, for any default that joins its tokens |
| `Wttrin.ImageFieldsWith` | wttrin.go:159-163 | an image path reads back as its location, language and effective flag tokens, for any default that joins its tokens |
| `Wttrin.LinePath` | wttrin.go:89-104 | for every input, the path starts with the effective location, `?lang=`, the effective language and `&format=`, ends with `&` and the flag segment, and is as long as those plus the escaped template; when the location holds no `?`, the language no `&` and no flag token `_`, it reads back as the effective location, language (empty gives the default, non-empty is kept, per field), a format field that is exactly `QueryEscape` of the effective template and decodes back to it, and flags |
| `Wttrin.AsciiPath` | wttrin.go:124-135 | for every input, the path is the effective location, `?lang=`, the effective language, `&` and the flag segment, placed verbatim; when the location holds no `?`, the language no `&` and no flag token `_`, it reads back as the effective location, language and flags, with no format field |
| `Wttrin.ImagePath` | wttrin.go:152-163 | for every input, the path is the effective location, `_lang=`, the effective language, `_`, the flag segment and `.png`, placed verbatim; when location, language and flag tokens hold no `_`, it reads back as the effective location, language and flags |
| `Wttrin.WttrIn` | wttrin.go:72-86 | requests `http://wttr.in/` + path; only status 200 yields the body; another status is an error with the status text; a transport failure is passed on |
| `Wttrin.NonOkStatusIsError` | wttrin.go:82-84 | a non-200 reply is an error whose text is `wttrin response status error:` followed by the status, whatever the body |
| `Wttrin.IsServiceUnavailable` | wttrin.go:167-171 | a body is an outage page exactly when both the 86-`=` rule and the author's address occur in it |
| `Wttrin.OutageNeedsBothParts` | wttrin.go:167-171 | either half of the signature alone is not an outage; both together are, in either order and with any text around them |
| `Wttrin.ClassifyLine` | wttrin.go:113-120 | outage page gives an error carrying the body; otherwise the unknown-location marker gives the location error; otherwise the body is returned verbatim, and only then is the result a success |
| `Wttrin.OutageBeforeUnknownLocation` | wttrin.go:114-119 | an outage page that also holds the unknown-location marker is reported as an outage |
| `Wttrin.ClassifyAscii` | wttrin.go:144-148 | only the outage page is an error; every other body is returned verbatim |
| `Wttrin.AsciiSkipsLocationCheck` | wttrin.go:144-148 | the unknown-location page is an error in the one-line mode and a success in the ASCII mode |
| `Wttrin.LineRefinesAscii` | wttrin.go:113-120 | the one-line classification is the ASCII one followed by the unknown-location check |
| `Wttrin.Line` | wttrin.go:89-121 | requests `http://wttr.in/` + the one-line path and maps every reply: transport error, status error, outage, unknown location, or the body |
| `Wttrin.Ascii` | wttrin.go:124-149 | requests `http://wttr.in/` + the ASCII path and maps every reply: transport error, status error, outage, or the body (no location check) |
| `Wttrin.Image` | wttrin.go:152-165 | requests `http://wttr.in/` + the image path; status 200 hands over the body unread, whatever it holds |
| `Wttrin.AsciiPathExamples` | wttrin_test.go:38-44 | for any non-empty location, `ASCII("zh", location)` requests `location?lang=zh&0_A_T_F_m_M_p` and with flags `0 A Q` requests `location?lang=zh&0_A_Q` (the tests use 成都) |
| `Wttrin.ImagePathExample` | wttrin_test.go:52 | for any non-empty location, `Image("zh", location)` requests `location_lang=zh_0_m_p_q.png` |
| `Wttrin.LinePathExample` | wttrin_test.go:30 | for any non-empty location and template, `Line("zh", location, format)` without flags requests the effective template escaped, followed by `&m_M`; with the tests' empty template that is the default one |

## Left out

- The HTTP client itself, its 10-second timeout and the debug log line (wttrin.go:74-81): the GET is the parameter `get`, and a transport failure is one of its possible replies.
- Reading the body (`ioutil.ReadAll`) and its failures (wttrin.go:109-112, wttrin.go:140-143): the body arrives as a string.
- The open `io.ReadCloser` that `WttrIn` and `Image` return, and the caller's duty to close it: the model returns the body it would yield.
- The meaning of the flag tokens and format placeholders (wttrin.go:17-55): the package forwards them without reading them.
- Non-UTF-8 byte strings: a Dafny string is a sequence of Unicode scalar values, so every modelled string is valid UTF-8. A real PNG reply (its first byte is 0x89) is not valid UTF-8, so the body that `Wttrin.Image` hands over is an opaque stand-in for the image bytes.
- Reference definitions that are not part of the package: `QueryUnescape`, `Utf8.Decode`, `Utf8.DecodeChar` and the path parsers. They were written for the round-trip contracts and read the path string handed to the GET. The UTF-8 decoder refuses overlong forms, surrogates and bad continuation bytes; `Utf8.OverlongRefused` shows that `C1 81` is refused.
- How Go's HTTP client parses the URL inside the GET (a `#` in a location, language or flag token starts a fragment that is cut off, an invalid `%` escape there makes the request fail, and the path is re-escaped before sending): that happens inside `get`, and the parsers do not model it, so the round trips describe the string requested, not what the service finally receives.
- Wttrin.LinePath, Wttrin.AsciiPath, Wttrin.ImagePath: for a location, language or flag token that holds its grammar's delimiters, the contracts state only where the fields are placed, not how the path reads back; the package inserts them unescaped, so such a path reads back differently (a location `a?b` is read as `a`).

=== FILE: grammar.dfy ===
/**
 * Reading the three path grammars back. Each parser describes the path string that
 * a mode hands to the GET, independently of how it is built; the contracts of the
 * path builders in `Wttrin` say that such a path carries exactly the effective
 * location, language, format template and flag tokens, in the caller's order.
 */
module PathGrammar {
  import opened Options
  import opened Strings
  import Url

  /** Flag tokens are joined with this separator. */
  const FlagSeparator: char := '_'

  /** A one-line request: the format field as it stands in the path, and the template it decodes to. */
  datatype LineRequest = LineRequest(location: string, lang: string, escapedFormat: string, format: string, flags: seq<string>)
  datatype PlainRequest = PlainRequest(location: string, lang: string, flags: seq<string>)

  /** `location?lang=L&format=F&flags`, keeping F as written and percent-decoded. */
  function ParseLinePath(path: string): (r: Option<LineRequest>) {
    var locationQuery :- SplitFirst(path, '?');
    var afterLang :- StripPrefix(locationQuery.1, "lang=");
    var langRest :- SplitFirst(afterLang, '&');
    var afterFormat :- StripPrefix(langRest.1, "format=");
    var formatFlags :- SplitFirst(afterFormat, '&');
    var format :- Url.QueryUnescape(formatFlags.0);
    Some(LineRequest(locationQuery.0, langRest.0, formatFlags.0, format, Split(formatFlags.1, FlagSeparator)))
  }

  /** `location?lang=L&flags`. */
  function ParseAsciiPath(path: string): (r: Option<PlainRequest>) {
    var locationQuery :- SplitFirst(path, '?');
    var afterLang :- StripPrefix(locationQuery.1, "lang=");
    var langFlags :- SplitFirst(afterLang, '&');
    Some(PlainRequest(locationQuery.0, langFlags.0, Split(langFlags.1, FlagSeparator)))
  }

  /** `location_lang=L_flags.png`. */
  function ParseImagePath(path: string): (r: Option<PlainRequest>) {
    var stem :- StripSuffix(path, ".png");
    var locationRest :- SplitFirst(stem, '_');
    var afterLang :- StripPrefix(locationRest.1, "lang=");
    var langFlags :- SplitFirst(afterLang, '_');
    Some(PlainRequest(locationRest.0, langFlags.0, Split(langFlags.1, FlagSeparator)))
  }

  /** Reading a one-line path whose fields avoid the delimiters that follow them. */
  lemma ParseLineFields(location: string, lang: string, escaped: string, segment: string)
    requires '?' !in location && '&' !in lang && '&' !in escaped
    ensures ParseLinePath(location + "?lang=" + lang + "&format=" + escaped + "&" + segment) ==
      match Url.QueryUnescape(escaped)
      case None => None
      case Some(format) => Some(LineRequest(location, lang, escaped, format, Split(segment, FlagSeparator)))
  {
    var afterFormat := escaped + "&" + segment;
    var afterLang := lang + "&" + ("format=" + afterFormat);
    var query := "lang=" + afterLang;
    assert location + "?lang=" + lang + "&format=" + escaped + "&" + segment == location + "?" + query;
    SplitFirstAt(location, query, '?');
    assert StripPrefix(query, "lang=") == Some(afterLang);
    SplitFirstAt(lang, "format=" + afterFormat, '&');
    assert StripPrefix("format=" + afterFormat, "format=") == Some(afterFormat);
    SplitFirstAt(escaped, segment, '&');
  }

  /** Reading an ASCII path whose fields avoid the delimiters that follow them. */
  lemma ParseAsciiFields(location: string, lang: string, segment: string)
    requires '?' !in location && '&' !in lang
    ensures ParseAsciiPath(location + "?lang=" + lang + "&" + segment) ==
      Some(PlainRequest(location, lang, Split(segment, FlagSeparator)))
  {
    var afterLang := lang + "&" + segment;
    var query := "lang=" + afterLang;
    assert location + "?lang=" + lang + "&" + segment == location + "?" + query;
    SplitFirstAt(location, query, '?');
    assert StripPrefix(query, "lang=") == Some(afterLang);
    SplitFirstAt(lang, segment, '&');
  }

  /** Reading an image path whose fields avoid underscores. */
  lemma ParseImageFields(location: string, lang: string, segment: string)
    requires '_' !in location && '_' !in lang
    ensures ParseImagePath(location + "_lang=" + lang + "_" + segment + ".png") ==
      Some(PlainRequest(location, lang, Split(segment, FlagSeparator)))
  {
    var afterLang := lang + "_" + segment;
    var rest := "lang=" + afterLang;
    var stem := location + "_" + rest;
    assert location + "_lang=" + lang + "_" + segment + ".png" == stem + ".png";
    assert StripSuffix(stem + ".png", ".png") == Some(stem);
    SplitFirstAt(location, rest, '_');
    assert StripPrefix(rest, "lang=") == Some(afterLang);
    SplitFirstAt(lang, segment, '_');
  }
}

=== FILE: options.dfy ===
/** An optional value, usable with `:-` so that a parse can stop at the first mismatch. */
module Options {

  datatype Option<+T> = None | Some(value: T) {

    predicate IsFailure() {
      None?
    }

    function PropagateFailure<U>(): Option<U>
      requires None?
    {
      None
    }

    function Extract(): T
      requires Some?
    {
      value
    }
  }
}

=== FILE: strings.dfy ===
/**
 * The functions of Go's `strings` package that the client uses (`Contains`, `Join`),
 * plus the splitting functions that invert `Join` and take a path apart again.
 */
module Strings {
  import opened Options

  /** `sub` occurs in `s` starting at index `k`. */
  ghost predicate OccursAt(s: string, sub: string, k: int) {
    0 <= k && k + |sub| <= |s| && s[k..k + |sub|] == sub
  }

  /** `sub` occurs somewhere in `s`: the meaning of `strings.Contains`. */
  ghost predicate Mentions(s: string, sub: string) {
    exists k :: OccursAt(s, sub, k)
  }

  /** `strings.Contains(s, sub)`; the empty string is contained in every string. */
  function Contains(s: string, sub: string): (r: bool)
    ensures r <==> Mentions(s, sub)
    decreases |s|
  {
    if sub <= s then
      assert OccursAt(s, sub, 0);
      true
    else if |s| == 0 then
      false
    else
      var r := Contains(s[1..], sub);
      assert r ==> Mentions(s, sub) by {
        if r {
          var k :| OccursAt(s[1..], sub, k);
          assert s[k + 1..k + 1 + |sub|] == s[1..][k..k + |sub|];
          assert OccursAt(s, sub, k + 1);
        }
      }
      assert Mentions(s, sub) ==> r by {
        if Mentions(s, sub) {
          var k :| OccursAt(s, sub, k);
          assert k != 0;
          assert s[1..][k - 1..k - 1 + |sub|] == s[k..k + |sub|];
          assert OccursAt(s[1..], sub, k - 1);
        }
      }
      r
  }

  /** An occurrence stays an occurrence whatever text surrounds it. */
  lemma MentionsInContext(before: string, s: string, after: string, sub: string)
    requires Mentions(s, sub)
    ensures Mentions(before + s + after, sub)
  {
    var k :| OccursAt(s, sub, k);
    var t := before + s + after;
    assert t[|before| + k..|before| + k + |sub|] == s[k..k + |sub|];
    assert OccursAt(t, sub, |before| + k);
  }

  /** Every character of a contained string is a character of the containing one. */
  lemma MentionsCharacters(s: string, sub: string, i: int)
    requires Mentions(s, sub) && 0 <= i < |sub|
    ensures |sub| <= |s| && sub[i] in s
  {
  }

  /** `strings.Join(parts, sep)`: the parts in order, with `sep` between neighbours. */
  function Join(parts: seq<string>, sep: string): (r: string)
    ensures |parts| == 0 ==> r == ""
    ensures |parts| > 0 ==> parts[0] <= r
  {
    if |parts| == 0 then ""
    else if |parts| == 1 then parts[0]
    else parts[0] + sep + Join(parts[1..], sep)
  }

  /** Joining one more token in front puts it and a separator in front. */
  lemma JoinPrepend(token: string, tokens: seq<string>, sep: string)
    requires |tokens| > 0
    ensures Join([token] + tokens, sep) == token + sep + Join(tokens, sep)
  {
    assert ([token] + tokens)[1..] == tokens;
  }

  /** Splits `s` at the first `sep`: the text before it (free of `sep`) and the text after it. */
  function SplitFirst(s: string, sep: char): (r: Option<(string, string)>)
    ensures r.None? <==> sep !in s
    ensures r.Some? ==> s == r.value.0 + [sep] + r.value.1 && sep !in r.value.0
  {
    if |s| == 0 then None
    else if s[0] == sep then Some(([], s[1..]))
    else match SplitFirst(s[1..], sep)
      case None => None
      case Some(parts) => Some(([s[0]] + parts.0, parts.1))
  }

  /** The first `sep` of `head + [sep] + tail` is the one after `head` when `head` has none. */
  lemma {:induction false} SplitFirstAt(head: string, tail: string, sep: char)
    requires sep !in head
    ensures SplitFirst(head + [sep] + tail, sep) == Some((head, tail))
  {
    var s := head + [sep] + tail;
    if head == [] {
      assert s[1..] == tail;
    } else {
      assert s[1..] == head[1..] + [sep] + tail;
      SplitFirstAt(head[1..], tail, sep);
      assert [head[0]] + head[1..] == head;
    }
  }

  /** `strings.Split` on a one-character separator: the maximal `sep`-free pieces, in order. */
  function Split(s: string, sep: char): (r: seq<string>)
    ensures |r| > 0
    ensures forall i :: 0 <= i < |r| ==> sep !in r[i]
    decreases |s|
  {
    match SplitFirst(s, sep)
    case None => [s]
    case Some(parts) => [parts.0] + Split(parts.1, sep)
  }

  /** Joining with a separator that no part contains can be undone by splitting. */
  lemma {:induction false} SplitJoin(parts: seq<string>, sep: char)
    requires |parts| > 0
    requires forall i :: 0 <= i < |parts| ==> sep !in parts[i]
    ensures Split(Join(parts, [sep]), sep) == parts
  {
    if |parts| == 1 {
      assert Join(parts, [sep]) == parts[0];
    } else {
      var rest := Join(parts[1..], [sep]);
      assert Join(parts, [sep]) == parts[0] + [sep] + rest;
      SplitFirstAt(parts[0], rest, sep);
      SplitJoin(parts[1..], sep);
      assert [parts[0]] + parts[1..] == parts;
    }
  }

  /** Splitting loses nothing: joining the pieces again gives back the string. */
  lemma {:induction false} JoinSplit(s: string, sep: char)
    ensures Join(Split(s, sep), [sep]) == s
    decreases |s|
  {
    match SplitFirst(s, sep)
    case None =>
    case Some(parts) =>
      JoinSplit(parts.1, sep);
      var r := Split(s, sep);
      assert r == [parts.0] + Split(parts.1, sep);
      assert r[1..] == Split(parts.1, sep);
  }

  /** Removes `prefix` from the front of `s`, if it is there. */
  function StripPrefix(s: string, prefix: string): (r: Option<string>)
    ensures r.Some? <==> prefix <= s
    ensures r.Some? ==> s == prefix + r.value
  {
    if prefix <= s then Some(s[|prefix|..]) else None
  }

  /** `s` ends with `suffix`. */
  predicate EndsWith(s: string, suffix: string) {
    |suffix| <= |s| && s[|s| - |suffix|..] == suffix
  }

  /** Removes `suffix` from the end of `s`, if it is there. */
  function StripSuffix(s: string, suffix: string): (r: Option<string>)
    ensures r.Some? <==> |suffix| <= |s| && s[|s| - |suffix|..] == suffix
    ensures r.Some? ==> s == r.value + suffix
  {
    if |suffix| <= |s| && s[|s| - |suffix|..] == suffix then Some(s[..|s| - |suffix|]) else None
  }
}

=== FILE: url.dfy ===
/**
 * `url.QueryEscape` from Go's `net/url`, in its query-component mode: the form of
 * percent-encoding of section 2.1 of RFC 3986 used for `application/x-www-form-urlencoded`.
 * Each UTF-8 byte of the input is kept when it is an unreserved character (section 2.3
 * of RFC 3986), a space becomes `+`, and every other byte becomes `%` and two upper-case
 * hex digits. `QueryUnescape` is a reference decoder that undoes it.
 */
module Url {
  import opened Options
  import Utf8

  type Byte = Utf8.Byte

  /** Unreserved characters (section 2.3 of RFC 3986): kept as they are. */
  predicate IsUnreserved(c: char) {
    'a' <= c <= 'z' || 'A' <= c <= 'Z' || '0' <= c <= '9' || c == '-' || c == '_' || c == '.' || c == '~'
  }

  /** The characters an escaped query component is made of. */
  predicate IsEscapedChar(c: char) {
    IsUnreserved(c) || c == '%' || c == '+'
  }

  /** A byte that stands for itself in a query component. */
  predicate IsKeptByte(b: Byte) {
    b < 0x80 && IsUnreserved(b as char)
  }

  /** The upper-case hex digit of `d`. */
  function HexDigit(d: int): (c: char)
    requires 0 <= d < 16
    ensures IsUnreserved(c) && !('a' <= c <= 'z')
    ensures HexValue(c) == Some(d)
  {
    if d < 10 then ('0' as int + d) as char else ('A' as int + d - 10) as char
  }

  /** The value of a hex digit of either case, or None. */
  function HexValue(c: char): (r: Option<int>)
    ensures r.Some? ==> 0 <= r.value < 16
  {
    if '0' <= c <= '9' then Some(c as int - '0' as int)
    else if 'a' <= c <= 'f' then Some(c as int - 'a' as int + 10)
    else if 'A' <= c <= 'F' then Some(c as int - 'A' as int + 10)
    else None
  }

  /** The escaped form of one byte: itself when unreserved, `+` for a space, else `%XX`. */
  function EscapeByte(b: Byte): (r: string)
    ensures forall i :: 0 <= i < |r| ==> IsEscapedChar(r[i])
    ensures IsKeptByte(b) ==> r == [b as char]
    ensures b == 0x20 ==> r == "+"
    ensures !IsKeptByte(b) && b != 0x20 ==> r == ['%', HexDigit(b / 16), HexDigit(b % 16)]
  {
    if b == 0x20 then "+"
    else if IsKeptByte(b) then [b as char]
    else ['%', HexDigit(b / 16), HexDigit(b % 16)]
  }

  /** The escaped form of a byte sequence: each byte's escape, in order. */
  function EscapeBytes(bs: seq<Byte>): (r: string)
    ensures forall i :: 0 <= i < |r| ==> IsEscapedChar(r[i])
  {
    if |bs| == 0 then "" else EscapeByte(bs[0]) + EscapeBytes(bs[1..])
  }

  /**
   * `url.QueryEscape(s)`. The result holds no `&`, `=`, `?`, `#`, space or any other
   * character that could end or split a query component.
   */
  function QueryEscape(s: string): (r: string)
    ensures forall i :: 0 <= i < |r| ==> IsEscapedChar(r[i])
  {
    EscapeBytes(Utf8.Encode(s))
  }

  /**
   * The bytes a query component stands for: `%XX` is the byte XX, `+` is a space and
   * every other character stands for its own UTF-8 bytes; None for a malformed `%`.
   */
  function Unescape(s: string): (r: Option<seq<Byte>>)
    decreases |s|
  {
    if |s| == 0 then Some([])
    else if s[0] == '%' then
      if |s| < 3 then None
      else
        var hi :- HexValue(s[1]);
        var lo :- HexValue(s[2]);
        var rest :- Unescape(s[3..]);
        Some([hi * 16 + lo] + rest)
    else
      var rest :- Unescape(s[1..]);
      Some((if s[0] == '+' then [0x20] else Utf8.EncodeChar(s[0])) + rest)
  }

  /**
   * A reference decoder: the string a query component stands for. Unlike Go's
   * `url.QueryUnescape`, which returns the raw bytes, it refuses bytes that are not UTF-8.
   */
  function QueryUnescape(s: string): (r: Option<string>)
  {
    var bs :- Unescape(s);
    Utf8.Decode(bs)
  }

  /** Unescaping one escaped byte in front of more text gives that byte in front of the rest. */
  lemma UnescapeEscapeByte(b: Byte, rest: string)
    ensures Unescape(EscapeByte(b) + rest) ==
      match Unescape(rest) case None => None case Some(tail) => Some([b] + tail)
  {
  }

  /** Unescaping undoes escaping, byte for byte. */
  lemma {:induction false} UnescapeEscapeBytes(bs: seq<Byte>)
    ensures Unescape(EscapeBytes(bs)) == Some(bs)
  {
    if |bs| > 0 {
      UnescapeEscapeByte(bs[0], EscapeBytes(bs[1..]));
      UnescapeEscapeBytes(bs[1..]);
      assert [bs[0]] + bs[1..] == bs;
    }
  }

  /** The server receives the caller's text exactly: `QueryUnescape(QueryEscape(s)) == s`. */
  lemma QueryRoundTrip(s: string)
    ensures QueryUnescape(QueryEscape(s)) == Some(s)
  {
    UnescapeEscapeBytes(Utf8.Encode(s));
    Utf8.DecodeEncode(s);
  }

  /** Text made only of unreserved characters is left unchanged. */
  lemma {:induction false} QueryEscapeKeepsUnreserved(s: string)
    requires forall i :: 0 <= i < |s| ==> IsUnreserved(s[i])
    ensures QueryEscape(s) == s
  {
    if |s| > 0 {
      var bs := Utf8.Encode(s);
      assert bs == Utf8.EncodeChar(s[0]) + Utf8.Encode(s[1..]);
      assert bs[1..] == Utf8.Encode(s[1..]);
      QueryEscapeKeepsUnreserved(s[1..]);
      assert [s[0]] + s[1..] == s;
    }
  }

  /** Spaces and the percent signs of a format template are escaped. */
  lemma QueryEscapeExample()
    ensures QueryEscape("%l %t") == "%25l+%25t"
  {
  }
}

=== FILE: utf8.dfy ===
/**
 * UTF-8, the byte form of a Go string. `url.QueryEscape` works on these bytes, so a
 * format template with Chinese text or emoji is escaped one UTF-8 byte at a time.
 */
module Utf8 {
  import opened Options

  type Byte = b: int | 0 <= b < 0x100

  /** Continuation bytes have the form 10xxxxxx. */
  predicate IsContinuation(b: Byte) {
    0x80 <= b < 0xC0
  }

  /** The bytes of one character: one byte below U+0080, then two, three or four bytes. */
  function EncodeChar(c: char): (r: seq<Byte>)
    ensures 1 <= |r| <= 4
    ensures c as int < 0x80 ==> r == [c as int]
    ensures c as int >= 0x80 ==> forall i :: 0 <= i < |r| ==> r[i] >= 0x80
  {
    var cp := c as int;
    if cp < 0x80 then [cp]
    else if cp < 0x800 then [0xC0 + cp / 0x40, 0x80 + cp % 0x40]
    else if cp < 0x1_0000 then [0xE0 + cp / 0x1000, 0x80 + cp / 0x40 % 0x40, 0x80 + cp % 0x40]
    else [0xF0 + cp / 0x4_0000, 0x80 + cp / 0x1000 % 0x40, 0x80 + cp / 0x40 % 0x40, 0x80 + cp % 0x40]
  }

  /** The bytes of a string: its characters' encodings, in order. */
  function Encode(s: string): (r: seq<Byte>)
    ensures |s| == 0 ==> r == []
    ensures |s| > 0 ==> EncodeChar(s[0]) <= r
  {
    if |s| == 0 then [] else EncodeChar(s[0]) + Encode(s[1..])
  }

  /** How many bytes a sequence starting with `lead` takes; 0 when `lead` cannot start one. */
  function SequenceLength(lead: Byte): (n: nat)
    ensures n <= 4
  {
    if lead < 0x80 then 1
    else if 0xC0 <= lead < 0xE0 then 2
    else if 0xE0 <= lead < 0xF0 then 3
    else if 0xF0 <= lead < 0xF8 then 4
    else 0
  }

  /** A code point that a `char` can hold (the surrogates are not characters). */
  predicate IsScalarValue(cp: int) {
    0 <= cp < 0xD800 || 0xE000 <= cp < 0x11_0000
  }

  /** The code point that a lead byte and its continuation bytes spell: their payload bits, in order. */
  function CodePoint(bs: seq<Byte>): (cp: int)
    requires 1 <= |bs| <= 4
  {
    var b0, n := bs[0] as int, |bs|;
    if n == 1 then b0
    else if n == 2 then (b0 - 0xC0) * 0x40 + (bs[1] as int - 0x80)
    else if n == 3 then (b0 - 0xE0) * 0x1000 + (bs[1] as int - 0x80) * 0x40 + (bs[2] as int - 0x80)
    else (b0 - 0xF0) * 0x4_0000 + (bs[1] as int - 0x80) * 0x1000 + (bs[2] as int - 0x80) * 0x40 + (bs[3] as int - 0x80)
  }

  /** The smallest code point that needs `n` bytes; a smaller one in `n` bytes is an overlong form. */
  function MinCodePoint(n: nat): (cp: int)
  {
    if n <= 1 then 0 else if n == 2 then 0x80 else if n == 3 then 0x800 else 0x1_0000
  }

  /**
   * The character spelled by one complete byte sequence; None for a bad continuation
   * byte, an overlong form or a value that is not a character.
   */
  function DecodeChar(bs: seq<Byte>): (r: Option<char>)
    requires 1 <= |bs| && |bs| == SequenceLength(bs[0])
    ensures r.Some? ==> MinCodePoint(|bs|) <= r.value as int
  {
    if exists i :: 1 <= i < |bs| && !IsContinuation(bs[i]) then None
    else
      var cp := CodePoint(bs);
      if IsScalarValue(cp) && MinCodePoint(|bs|) <= cp then Some(cp as char) else None
  }

  /** The string spelled by a byte sequence, or None when the bytes are not UTF-8. */
  function Decode(bs: seq<Byte>): (r: Option<string>)
    decreases |bs|
  {
    if |bs| == 0 then Some([])
    else
      var n := SequenceLength(bs[0]);
      if n == 0 || |bs| < n then None
      else
        var c :- DecodeChar(bs[..n]);
        var rest :- Decode(bs[n..]);
        Some([c] + rest)
  }

  /** One character's bytes decode to that character. */
  lemma DecodeEncodeChar(c: char)
    ensures var bs := EncodeChar(c); |bs| == SequenceLength(bs[0]) && DecodeChar(bs) == Some(c)
  {
    var cp := c as int;
    var bs := EncodeChar(c);
    var lo, mid, hi := cp % 0x40, cp / 0x40 % 0x40, cp / 0x1000 % 0x40;
    if cp < 0x80 {
    } else if cp < 0x800 {
      assert bs == [0xC0 + cp / 0x40, 0x80 + lo];
      assert CodePoint(bs) == (cp / 0x40) * 0x40 + lo == cp;
    } else if cp < 0x1_0000 {
      assert bs == [0xE0 + cp / 0x1000, 0x80 + mid, 0x80 + lo];
      assert cp / 0x40 == (cp / 0x1000) * 0x40 + mid;
      assert CodePoint(bs) == (cp / 0x1000) * 0x1000 + mid * 0x40 + lo == cp;
    } else {
      assert bs == [0xF0 + cp / 0x4_0000, 0x80 + hi, 0x80 + mid, 0x80 + lo];
      assert cp / 0x1000 == (cp / 0x4_0000) * 0x40 + hi;
      assert cp / 0x40 == (cp / 0x1000) * 0x40 + mid;
      assert CodePoint(bs) == (cp / 0x4_0000) * 0x4_0000 + hi * 0x1000 + mid * 0x40 + lo == cp;
    }
  }

  /** Decoding undoes encoding: the bytes of a string spell exactly that string. */
  lemma {:induction false} DecodeEncode(s: string)
    ensures Decode(Encode(s)) == Some(s)
  {
    if |s| > 0 {
      var head := EncodeChar(s[0]);
      var bs := Encode(s);
      assert bs == head + Encode(s[1..]);
      DecodeEncodeChar(s[0]);
      assert bs[0] == head[0];
      assert bs[..|head|] == head;
      assert bs[|head|..] == Encode(s[1..]);
      DecodeEncode(s[1..]);
      assert [s[0]] + s[1..] == s;
    }
  }

  /** An overlong form is not UTF-8: two bytes spelling `A` are refused. */
  lemma OverlongRefused()
    ensures DecodeChar([0xC1, 0x81]) == None
  {
    assert CodePoint([0xC1, 0x81]) == 0x41;
  }
}

=== FILE: wttrin.dfy ===
/**
 * The wttr.in client: each of the three modes (a one-line report, a multi-line
 * ASCII report, a PNG image) fills in defaults, builds the path that follows
 * `http://wttr.in/`, fetches it once, and for the two text modes sorts the body
 * into a result or an error.
 *
 * The HTTP round trip is a parameter `get`: the URL goes in, and what comes back is
 * either a transport failure or a status with a body. The body returned for an image
 * stands for the open stream the caller receives.
 */
module Wttrin {
  import opened Options
  import opened Strings
  import Url
  import opened PathGrammar

  const BaseURL: string := "http://wttr.in/"

  const DefaultLang: string := "zh"
  /** Chengdu. */
  const DefaultLocation: string := "成都"
  /** The one-line template: location, weather icon and text, temperature, wind, humidity, pressure, precipitation, moon. */
  const DefaultFormat: string :=
    "当前%l:\n天气%c %C\n温度\U{1F321}\U{FE0F} %t\n风速\U{1F32C}\U{FE0F} %w\n湿度\U{1F4A6} %h\n"
    + "气压\U{1F9ED} %P\n降水\U{2614}\U{FE0F} %p\n月相\U{1F311} +%M%m"

  const DefaultLineFlags: string := "m_M"
  const DefaultAsciiFlags: string := "0_A_T_F_m_M_p"
  const DefaultImageFlags: string := "0_m_p_q"
  /** The same defaults as token lists. */
  const LineDefaultTokens: seq<string> := ["m", "M"]
  const AsciiDefaultTokens: seq<string> := ["0", "A", "T", "F", "m", "M", "p"]
  const ImageDefaultTokens: seq<string> := ["0", "m", "p", "q"]

  /** The outage signature: a rule of 86 `=` signs and the author's address, both present. */
  const OutageRule: string := Repeat('=', 86)
  const OutagePromo: string := "https://twitter.com/igor_chubin"
  const UnknownLocationMarker: string := "Unknown location; please try"

  const StatusErrorPrefix: string := "wttrin response status error:"
  const LocationErrorText: string := "wttrin Line get location failed"

  /** What one GET brings back. */
  datatype Reply =
    | TransportFailure(cause: string)
    | Response(statusCode: int, status: string, body: string)

  datatype Error =
    | TransportError(cause: string)
    | StatusError(status: string)
    | ServiceUnavailable(body: string)
    | LocationNotFound
  {
    /** The text of the error value the caller receives. */
    function Message(): (m: string)
      ensures TransportError? ==> m == cause
      ensures StatusError? ==> m == "wttrin response status error:" + status
      ensures ServiceUnavailable? ==> m == body
      ensures LocationNotFound? ==> m == "wttrin Line get location failed"
    {
      match this
      case TransportError(cause) => cause
      case StatusError(status) => StatusErrorPrefix + status
      case ServiceUnavailable(body) => body
      case LocationNotFound => LocationErrorText
    }
  }

  datatype Result<T> = Ok(value: T) | Err(error: Error)

  /** `n` copies of `c`. */
  function Repeat(c: char, n: nat): (r: string)
    ensures |r| == n
    ensures forall i :: 0 <= i < n ==> r[i] == c
  {
    if n == 0 then "" else [c] + Repeat(c, n - 1)
  }

  /** An empty parameter stands for its default; any other value is used as given. */
  function OrDefault(value: string, default: string): (r: string)
    ensures value == "" ==> r == default
    ensures value != "" ==> r == value
  {
    if value == "" then default else value
  }

  /** No flag token contains the separator. */
  predicate NoSeparator(flags: seq<string>) {
    forall i :: 0 <= i < |flags| ==> FlagSeparator !in flags[i]
  }

  /** The flag tokens a request carries: the caller's, or the mode's defaults when there are none. */
  function EffectiveFlags(flags: seq<string>, defaults: seq<string>): (r: seq<string>) {
    if |flags| > 0 then flags else defaults
  }

  /**
   * The caller's flag tokens joined with `_`, or the mode's default when there are none.
   * The tokens can be read back from the segment, in order, when none holds `_`.
   */
  function FlagSegment(flags: seq<string>, default: string): (r: string)
    ensures |flags| == 0 ==> r == default
    ensures |flags| > 0 ==> r == Join(flags, [FlagSeparator])
    ensures |flags| > 0 && NoSeparator(flags) ==> Split(r, FlagSeparator) == flags
  {
    if |flags| > 0 then
      var joined := Join(flags, [FlagSeparator]);
      assert NoSeparator(flags) ==> Split(joined, FlagSeparator) == flags by {
        if NoSeparator(flags) {
          SplitJoin(flags, FlagSeparator);
        }
      }
      joined
    else default
  }

  /** Each mode's default flag string is its default tokens joined with `_`. */
  lemma DefaultLineFlagsAreJoinedTokens()
    ensures DefaultLineFlags == Join(LineDefaultTokens, [FlagSeparator])
  {
  }

  lemma DefaultAsciiFlagsAreJoinedTokens()
    ensures DefaultAsciiFlags == Join(AsciiDefaultTokens, [FlagSeparator])
  {
    JoinPrepend("M", ["p"], [FlagSeparator]);
    JoinPrepend("m", ["M", "p"], [FlagSeparator]);
    JoinPrepend("F", ["m", "M", "p"], [FlagSeparator]);
    JoinPrepend("T", ["F", "m", "M", "p"], [FlagSeparator]);
    JoinPrepend("A", ["T", "F", "m", "M", "p"], [FlagSeparator]);
    JoinPrepend("0", ["A", "T", "F", "m", "M", "p"], [FlagSeparator]);
  }

  lemma DefaultImageFlagsAreJoinedTokens()
    ensures DefaultImageFlags == Join(ImageDefaultTokens, [FlagSeparator])
  {
    JoinPrepend("p", ["q"], [FlagSeparator]);
    JoinPrepend("m", ["p", "q"], [FlagSeparator]);
    JoinPrepend("0", ["m", "p", "q"], [FlagSeparator]);
  }

  /** The flag segment splits back into the tokens the request carries. */
  lemma FlagSegmentTokens(flags: seq<string>, default: string, defaultTokens: seq<string>)
    requires NoSeparator(flags)
    requires |defaultTokens| > 0 && NoSeparator(defaultTokens) && default == Join(defaultTokens, [FlagSeparator])
    ensures Split(FlagSegment(flags, default), FlagSeparator) == EffectiveFlags(flags, defaultTokens)
  {
    if |flags| == 0 {
      SplitJoin(defaultTokens, FlagSeparator);
    }
  }

  /** An ASCII path built on any default flag string that joins its default tokens reads back whole. */
  lemma AsciiFieldsWith(loc: string, lg: string, flags: seq<string>, default: string, defaultTokens: seq<string>)
    requires '?' !in loc && '&' !in lg && NoSeparator(flags)
    requires |defaultTokens| > 0 && NoSeparator(defaultTokens) && default == Join(defaultTokens, [FlagSeparator])
    ensures ParseAsciiPath(loc + "?lang=" + lg + "&" + FlagSegment(flags, default)) ==
      Some(PlainRequest(loc, lg, EffectiveFlags(flags, defaultTokens)))
  {
    ParseAsciiFields(loc, lg, FlagSegment(flags, default));
    FlagSegmentTokens(flags, default, defaultTokens);
  }

  /** The same for an image path. */
  lemma ImageFieldsWith(loc: string, lg: string, flags: seq<string>, default: string, defaultTokens: seq<string>)
    requires '_' !in loc && '_' !in lg && NoSeparator(flags)
    requires |defaultTokens| > 0 && NoSeparator(defaultTokens) && default == Join(defaultTokens, [FlagSeparator])
    ensures ParseImagePath(loc + "_lang=" + lg + "_" + FlagSegment(flags, default) + ".png") ==
      Some(PlainRequest(loc, lg, EffectiveFlags(flags, defaultTokens)))
  {
    ParseImageFields(loc, lg, FlagSegment(flags, default));
    FlagSegmentTokens(flags, default, defaultTokens);
  }

  /**
   * `location?lang=L&format=F&flags`. Read back, it carries the effective location,
   * language, format template and flags; only the template is escaped: its field is
   * `QueryEscape` of the template, and it decodes to exactly that template.
   */
  function LinePath(lang: string, location: string, format: string, flags: seq<string>): (r: string)
    ensures OrDefault(location, DefaultLocation) + "?lang=" + OrDefault(lang, DefaultLang) + "&format=" <= r
    ensures EndsWith(r, "&" + FlagSegment(flags, DefaultLineFlags))
    ensures |r| == |OrDefault(location, DefaultLocation)| + |OrDefault(lang, DefaultLang)| + 15
      + |Url.QueryEscape(OrDefault(format, DefaultFormat))| + |FlagSegment(flags, DefaultLineFlags)|
    ensures '?' !in location && '&' !in lang && NoSeparator(flags) ==>
      ParseLinePath(r) == Some(LineRequest(
        OrDefault(location, DefaultLocation), OrDefault(lang, DefaultLang),
        Url.QueryEscape(OrDefault(format, DefaultFormat)), OrDefault(format, DefaultFormat),
        EffectiveFlags(flags, LineDefaultTokens)))
  {
    var loc, lg, fmt := OrDefault(location, DefaultLocation), OrDefault(lang, DefaultLang), OrDefault(format, DefaultFormat);
    var escaped := Url.QueryEscape(fmt);
    var segment := FlagSegment(flags, DefaultLineFlags);
    var path := loc + "?lang=" + lg + "&format=" + escaped + "&" + segment;
    assert '?' !in location && '&' !in lang && NoSeparator(flags) ==>
      ParseLinePath(path) == Some(LineRequest(loc, lg, escaped, fmt, EffectiveFlags(flags, LineDefaultTokens))) by {
      if '?' !in location && '&' !in lang && NoSeparator(flags) {
        assert '&' !in escaped;
        ParseLineFields(loc, lg, escaped, segment);
        Url.QueryRoundTrip(fmt);
        DefaultLineFlagsAreJoinedTokens();
        FlagSegmentTokens(flags, DefaultLineFlags, LineDefaultTokens);
      }
    }
    path
  }

  /** `location?lang=L&flags`. Read back, it carries the effective location, language and flags, and no template. */
  function AsciiPath(lang: string, location: string, flags: seq<string>): (r: string)
    ensures OrDefault(location, DefaultLocation) + "?lang=" + OrDefault(lang, DefaultLang) + "&" <= r
    ensures EndsWith(r, "&" + FlagSegment(flags, DefaultAsciiFlags))
    ensures |r| == |OrDefault(location, DefaultLocation)| + |OrDefault(lang, DefaultLang)| + 7 + |FlagSegment(flags, DefaultAsciiFlags)|
    ensures '?' !in location && '&' !in lang && NoSeparator(flags) ==>
      ParseAsciiPath(r) == Some(PlainRequest(
        OrDefault(location, DefaultLocation), OrDefault(lang, DefaultLang),
        EffectiveFlags(flags, AsciiDefaultTokens)))
  {
    var loc, lg := OrDefault(location, DefaultLocation), OrDefault(lang, DefaultLang);
    var segment := FlagSegment(flags, DefaultAsciiFlags);
    var path := loc + "?lang=" + lg + "&" + segment;
    assert path == (loc + "?lang=" + lg) + ("&" + segment);
    assert '?' !in location && '&' !in lang && NoSeparator(flags) ==>
      ParseAsciiPath(path) == Some(PlainRequest(loc, lg, EffectiveFlags(flags, AsciiDefaultTokens))) by {
      if '?' !in location && '&' !in lang && NoSeparator(flags) {
        DefaultAsciiFlagsAreJoinedTokens();
        AsciiFieldsWith(loc, lg, flags, DefaultAsciiFlags, AsciiDefaultTokens);
      }
    }
    path
  }

  /**
   * `location_lang=L_flags.png`: underscores instead of a query string, and a `.png`
   * name. Read back, it carries the effective location, language and flags.
   */
  function ImagePath(lang: string, location: string, flags: seq<string>): (r: string)
    ensures OrDefault(location, DefaultLocation) + "_lang=" + OrDefault(lang, DefaultLang) + "_" <= r
    ensures EndsWith(r, "_" + FlagSegment(flags, DefaultImageFlags) + ".png")
    ensures |r| == |OrDefault(location, DefaultLocation)| + |OrDefault(lang, DefaultLang)| + 11 + |FlagSegment(flags, DefaultImageFlags)|
    ensures EndsWith(r, ".png")
    ensures '_' !in location && '_' !in lang && NoSeparator(flags) ==>
      ParseImagePath(r) == Some(PlainRequest(
        OrDefault(location, DefaultLocation), OrDefault(lang, DefaultLang),
        EffectiveFlags(flags, ImageDefaultTokens)))
  {
    var loc, lg := OrDefault(location, DefaultLocation), OrDefault(lang, DefaultLang);
    var segment := FlagSegment(flags, DefaultImageFlags);
    var path := loc + "_lang=" + lg + "_" + segment + ".png";
    assert '_' !in location && '_' !in lang && NoSeparator(flags) ==>
      ParseImagePath(path) == Some(PlainRequest(loc, lg, EffectiveFlags(flags, ImageDefaultTokens))) by {
      if '_' !in location && '_' !in lang && NoSeparator(flags) {
        DefaultImageFlagsAreJoinedTokens();
        ImageFieldsWith(loc, lg, flags, DefaultImageFlags, ImageDefaultTokens);
      }
    }
    path
  }

  /**
   * One GET of `http://wttr.in/` + `locationQuery`. Only status 200 gives the body;
   * any other status is an error carrying the status text, and no body.
   */
  function WttrIn(get: string -> Reply, locationQuery: string): (r: Result<string>)
    ensures var reply := get(BaseURL + locationQuery);
      && (r.Ok? <==> reply.Response? && reply.statusCode == 200)
      && (r.Ok? ==> r.value == reply.body)
      && (reply.TransportFailure? ==> r == Err(TransportError(reply.cause)))
      && (reply.Response? && reply.statusCode != 200 ==> r == Err(StatusError(reply.status)))
  {
    match get(BaseURL + locationQuery)
    case TransportFailure(cause) => Err(TransportError(cause))
    case Response(code, status, body) =>
      if code != 200 then Err(StatusError(status)) else Ok(body)
  }

  /** The outage page: both parts of the signature occur in the body. */
  function IsServiceUnavailable(body: string): (r: bool)
    ensures r <==> Mentions(body, OutageRule) && Mentions(body, OutagePromo)
  {
    Contains(body, OutageRule) && Contains(body, OutagePromo)
  }

  /** The one-line mode's reading of a body: outage first, then an unknown location, else the body itself. */
  function ClassifyLine(body: string): (r: Result<string>)
    ensures Mentions(body, OutageRule) && Mentions(body, OutagePromo) ==> r == Err(ServiceUnavailable(body))
    ensures !(Mentions(body, OutageRule) && Mentions(body, OutagePromo)) && Mentions(body, UnknownLocationMarker)
      ==> r == Err(LocationNotFound)
    ensures r.Ok? <==>
      !(Mentions(body, OutageRule) && Mentions(body, OutagePromo)) && !Mentions(body, UnknownLocationMarker)
    ensures r.Ok? ==> r.value == body
  {
    if IsServiceUnavailable(body) then Err(ServiceUnavailable(body))
    else if Contains(body, UnknownLocationMarker) then Err(LocationNotFound)
    else Ok(body)
  }

  /** The ASCII mode's reading of a body: only the outage is recognised. */
  function ClassifyAscii(body: string): (r: Result<string>)
    ensures Mentions(body, OutageRule) && Mentions(body, OutagePromo) ==> r == Err(ServiceUnavailable(body))
    ensures !(Mentions(body, OutageRule) && Mentions(body, OutagePromo)) ==> r == Ok(body)
  {
    if IsServiceUnavailable(body) then Err(ServiceUnavailable(body)) else Ok(body)
  }

  /** `Line`: the one-line report for a place. */
  function Line(get: string -> Reply, lang: string, location: string, format: string, flags: seq<string>): (r: Result<string>)
    ensures var reply := get(BaseURL + LinePath(lang, location, format, flags));
      match reply
      case TransportFailure(cause) => r == Err(TransportError(cause))
      case Response(code, status, body) =>
        if code != 200 then r == Err(StatusError(status))
        else if Mentions(body, OutageRule) && Mentions(body, OutagePromo) then r == Err(ServiceUnavailable(body))
        else if Mentions(body, UnknownLocationMarker) then r == Err(LocationNotFound)
        else r == Ok(body)
  {
    match WttrIn(get, LinePath(lang, location, format, flags))
    case Err(e) => Err(e)
    case Ok(body) => ClassifyLine(body)
  }

  /** `ASCII`: the multi-line report for a place. */
  function Ascii(get: string -> Reply, lang: string, location: string, flags: seq<string>): (r: Result<string>)
    ensures var reply := get(BaseURL + AsciiPath(lang, location, flags));
      match reply
      case TransportFailure(cause) => r == Err(TransportError(cause))
      case Response(code, status, body) =>
        if code != 200 then r == Err(StatusError(status))
        else if Mentions(body, OutageRule) && Mentions(body, OutagePromo) then r == Err(ServiceUnavailable(body))
        else r == Ok(body)
  {
    match WttrIn(get, AsciiPath(lang, location, flags))
    case Err(e) => Err(e)
    case Ok(body) => ClassifyAscii(body)
  }

  /** `Image`: the PNG for a place, handed over unread, whatever it contains. */
  function Image(get: string -> Reply, lang: string, location: string, flags: seq<string>): (r: Result<string>)
    ensures var reply := get(BaseURL + ImagePath(lang, location, flags));
      match reply
      case TransportFailure(cause) => r == Err(TransportError(cause))
      case Response(code, status, body) =>
        if code != 200 then r == Err(StatusError(status)) else r == Ok(body)
  {
    WttrIn(get, ImagePath(lang, location, flags))
  }

  /** Either half of the outage signature alone is not an outage; both together are, wherever they stand. */
  lemma OutageNeedsBothParts(before: string, middle: string, after: string)
    ensures !IsServiceUnavailable(OutageRule)
    ensures !IsServiceUnavailable(OutagePromo)
    ensures IsServiceUnavailable(before + OutageRule + middle + OutagePromo + after)
    ensures IsServiceUnavailable(before + OutagePromo + middle + OutageRule + after)
  {
    if Mentions(OutageRule, OutagePromo) {
      MentionsCharacters(OutageRule, OutagePromo, 0);
      assert false;
    }
    if Mentions(OutagePromo, OutageRule) {
      MentionsCharacters(OutagePromo, OutageRule, 0);
      assert false;
    }
    assert OccursAt(OutageRule, OutageRule, 0) && OccursAt(OutagePromo, OutagePromo, 0);
    MentionsInContext(before, OutageRule, middle + OutagePromo + after, OutageRule);
    MentionsInContext(before + OutageRule + middle, OutagePromo, after, OutagePromo);
    assert before + OutageRule + (middle + OutagePromo + after) == before + OutageRule + middle + OutagePromo + after;
    MentionsInContext(before, OutagePromo, middle + OutageRule + after, OutagePromo);
    MentionsInContext(before + OutagePromo + middle, OutageRule, after, OutageRule);
    assert before + OutagePromo + (middle + OutageRule + after) == before + OutagePromo + middle + OutageRule + after;
  }

  /** The one-line mode checks for an outage before an unknown location: an outage page wins. */
  lemma OutageBeforeUnknownLocation(body: string)
    requires IsServiceUnavailable(body) && Contains(body, UnknownLocationMarker)
    ensures ClassifyLine(body) == Err(ServiceUnavailable(body))
  {
  }

  /** The unknown-location page is an error in the one-line mode and a success in the ASCII mode. */
  lemma AsciiSkipsLocationCheck()
    ensures ClassifyLine(UnknownLocationMarker) == Err(LocationNotFound)
    ensures ClassifyAscii(UnknownLocationMarker) == Ok(UnknownLocationMarker)
  {
  }

  /** The one-line classification is the ASCII one followed by the unknown-location check. */
  lemma LineRefinesAscii(body: string)
    ensures ClassifyLine(body) ==
      match ClassifyAscii(body)
      case Err(e) => Err(e)
      case Ok(text) => if Mentions(text, UnknownLocationMarker) then Err(LocationNotFound) else Ok(text)
  {
  }

  /** A status other than 200 is an error whatever the body, and its text names the status. */
  lemma NonOkStatusIsError(get: string -> Reply, locationQuery: string)
    requires get(BaseURL + locationQuery).Response? && get(BaseURL + locationQuery).statusCode != 200
    ensures WttrIn(get, locationQuery).Err?
    ensures WttrIn(get, locationQuery).error.Message() == StatusErrorPrefix + get(BaseURL + locationQuery).status
  {
  }

  /** The request paths of the ASCII calls made in the package's tests, for any given location. */
  lemma AsciiPathExamples(location: string)
    requires location != ""
    ensures AsciiPath("zh", location, ["0", "A", "Q"]) == location + "?lang=zh&0_A_Q"
    ensures AsciiPath("zh", location, []) == location + "?lang=zh&0_A_T_F_m_M_p"
  {
    var flags := ["0", "A", "Q"];
    assert flags[1..] == ["A", "Q"] && flags[1..][1..] == ["Q"];
    assert Join(flags, "_") == "0_A_Q";
  }

  /** The request path of the image call without flags made in the package's tests, for any given location. */
  lemma ImagePathExample(location: string)
    requires location != ""
    ensures ImagePath("zh", location, []) == location + "_lang=zh_0_m_p_q.png"
  {
  }

  /**
   * The request path of the one-line call without flags made in the package's tests, for any
   * given location and template: the empty template of the tests is sent as the default one, escaped.
   */
  lemma LinePathExample(location: string, format: string)
    requires location != ""
    ensures LinePath("zh", location, format, []) ==
      location + "?lang=zh&format=" + Url.QueryEscape(OrDefault(format, DefaultFormat)) + "&m_M"
  {
    assert OrDefault(location, DefaultLocation) == location && OrDefault("zh", DefaultLang) == "zh";
    assert FlagSegment([], DefaultLineFlags) == "m_M";
  }
}
